=== FILE: README.md ===
# Daily scheduler of `TimedHostedService`, modelled in Dafny

`TimedHostedService` is a .NET hosted service that runs a task once a day at a configured
local time (`Hour:Minute`) in a configured time zone (`TimeZoneId`). Each scheduling pass does
the following:
- reads the current UTC time and converts it to the zone's wall-clock time;
- builds today's date at `Hour:Minute:00`;
- moves that to tomorrow if the local time is strictly later;
- converts the target back to UTC;
- arms a `System.Threading.Timer` for the difference.

The timer callback `DoWork` runs the same pass again. `StopAsync` disarms the timer that `_timer`
refers to, and `Dispose` disposes it.

The project models this core in six modules:

- `Results` (`results.dfy`): `Option` and `Result`, which stand in for the exceptions.
- `Calendar` (`calendar.dfy`): the Gregorian calendar over years 1 to 9999, with leap years,
  month lengths, next and previous day, and the day numbering `DateTime` uses internally. The
  closed-form numbering is proved to count one per day. The lexicographic order of dates is
  proved to be the order of their numbers.
- `DateTimes` (`date_time.dfy`): `DateTime` as a date plus a tick-of-day in 100 ns ticks,
  with the following parts:
  - the constructor's range checks;
  - `AddDays(1)`;
  - the tick count that `>` and `-` use, with lexicographic `Before` proved equal to the tick order;
  - shifting by under a day.
- `TimeZones` (`time_zone.dfy`): a zone is a fixed UTC offset of at most 14 hours, looked up by
  identifier in a table that may lack it. `ConvertTimeFromUtc` and `ConvertTimeToUtc` saturate at
  `DateTime.MinValue` and `MaxValue`.
- `Scheduling` (`schedule.dfy`): `ComputeSchedule`, the pass itself (lines 28-48). Lemmas cover
  the following:
  - where the target lands;
  - when it rolls to tomorrow;
  - that it is the earliest slot not before now;
  - bounds on the wait;
  - the case where now equals the slot;
  - two consecutive passes.
- `HostedService` (`hosted_service.dfy`): the `_timer` field as a state machine. Every timer
  ever created is kept, so a timer that is overwritten but still armed can be seen. The module
  covers `StartAsync`, `DoWork`, `StopAsync`, `Dispose`, runs of passes, and a corrected,
  replacing pass.

"Now" is a parameter of every pass. The zone table is a parameter standing for the host's
time-zone database.

Three points of the code shape the model:
- **Ties.** The comparison at line 41 is strict, so when local now equals the slot the run is
  due today with a zero wait (`FiresNowOnEquality`). A callback that runs exactly at its target
  instant schedules that same instant again (`RecomputeAtFireInstant`).
- **Timer replacement.** Line 50 assigns a new timer to `_timer` without disposing or disarming
  the previous one, which stays armed (see Findings).
- **Validating `Hour` and `Minute`.** `TimedHostedService` never checks them itself. Only
  `new DateTime(...)` at lines 32-39 does, on each pass.

## Model

| member | source | states |
|---|---|---|
| Calendar.NextDay | TimedHostedService.cs:43 | The next calendar day is a valid date. It is missing exactly for 31 December 9999, which `AddDays(1)` cannot pass. |
| Calendar.NextDayIsSuccessor | TimedHostedService.cs:43 | Adding a day advances the day count by exactly one. Days roll into months and months into years, using the true month lengths and the Gregorian leap rule. |
| Calendar.LeapDayRollover | TimedHostedService.cs:43 | 28 February goes to 29 February only in leap years, otherwise to 1 March. 31 December goes to 1 January of the next year. |
| Calendar.PrevDay | TimedHostedService.cs:30 | The previous calendar day, needed when a negative offset crosses midnight backwards, is a valid date. It is missing exactly for 1 January of year 1. |
| Calendar.PrevDayIsPredecessor | TimedHostedService.cs:30 | Stepping back a day, as a negative zone offset can do, lowers the day count by exactly one. |
| Calendar.NextPrevRoundTrip | TimedHostedService.cs:30 | Stepping forward a day and back again returns the same date. |
| Calendar.DateBeforeIffDayNumber | TimedHostedService.cs:41 | Lexicographic order of (year, month, day) is exactly the order of the day counts that `DateTime` compares. |
| Calendar.DayNumberRange | TimedHostedService.cs:41 | Every valid date is numbered from 0 (1 January of year 1) to the number of 31 December 9999. Only those two dates reach the ends. |
| DateTimes.FromParts | TimedHostedService.cs:32-39 | The constructor succeeds exactly when every component is in range. It then has the given date, hour, minute and second, and no sub-second part. |
| DateTimes.TimeToTicksFields | TimedHostedService.cs:36-38 | The hour, minute and second read back from the tick-of-day of `Hour:Minute:00` are the ones given. |
| DateTimes.AddOneDay | TimedHostedService.cs:43 | `AddDays(1)` keeps the time of day and adds exactly one day of ticks. It fails exactly when that passes `DateTime.MaxValue`. |
| DateTimes.BeforeIffTicks | TimedHostedService.cs:41 | The `>` comparison of two `DateTime` values on ticks is the lexicographic order of date and time of day. |
| DateTimes.TicksInjective | TimedHostedService.cs:48 | Two `DateTime` values with equal tick counts are equal, so the subtraction at line 48 sees each value exactly. |
| DateTimes.ShiftTicks | TimedHostedService.cs:30 | `Shift`, the offset arithmetic behind both conversions: moving by less than a day changes the tick count by exactly that amount. It fails exactly when the result leaves the `DateTime` range. |
| TimeZones.FindSystemTimeZoneById | TimedHostedService.cs:29 | The lookup succeeds exactly for known identifiers. An unknown one raises `TimeZoneNotFoundException`. |
| TimeZones.ShiftSaturatingTicks | TimedHostedService.cs:30 | `ShiftSaturating`, the clamping step of both conversions: the result is exact inside the `DateTime` range, `MinValue` below it and `MaxValue` above it. |
| TimeZones.ConvertTimeFromUtc | TimedHostedService.cs:30 | Local time is UTC plus the offset, tick for tick, and is clamped to `MinValue` or `MaxValue` outside the range. |
| TimeZones.ConvertTimeToUtc | TimedHostedService.cs:46 | UTC is local time minus the offset, and is clamped the same way. |
| TimeZones.ConvertRoundTrip | TimedHostedService.cs:46 | Converting a UTC instant to local time and back returns it whenever the local reading is not clamped. |
| TimeZones.ConvertMonotone | TimedHostedService.cs:30 | Neither conversion reverses the order of two instants. |
| Scheduling.ComputeSchedule | TimedHostedService.cs:28-48 | Failures and their order: an unknown zone fails first, then an hour or minute out of range. With both valid, the pass fails exactly when the local date is 31 December 9999 and now is past the slot. On success the target has time of day `Hour:Minute:00`, and the wait is the UTC target minus UTC now. |
| Scheduling.CandidateIsToday | TimedHostedService.cs:32-39 | `TodaysSlot`, the `new DateTime(...)` call, succeeds exactly when `Hour` and `Minute` are in range. Its result is on the local date of now, at `Hour:Minute:00`. |
| Scheduling.RollsIffSlotPassed | TimedHostedService.cs:41-44 | The target is today's slot exactly when now is not strictly later than it. Otherwise it is the next calendar day at the same time of day. |
| Scheduling.TargetWithinOneDay | TimedHostedService.cs:41-44 | The chosen target is not before local now and is less than 24 hours after it. |
| Scheduling.TargetIsEarliestSlot | TimedHostedService.cs:41-44 | No `Hour:Minute:00` reading that is at or after now comes before the target, so the target is the earliest such slot. |
| Scheduling.WaitIsLocalGap | TimedHostedService.cs:46-48 | With a fixed offset and nothing clamped, the UTC wait equals local target minus local now, in [0, 24h). |
| Scheduling.WaitBounds | TimedHostedService.cs:46-48 | Every wait is at least zero. It is under 24 hours unless local now was clamped at `MinValue`, and always under 24 hours plus the largest offset. |
| Scheduling.FiresNowOnEquality | TimedHostedService.cs:41-48 | When local now is exactly `Hour:Minute:00`, the target is now itself. The wait is zero exactly in that case. |
| Scheduling.RecomputeAtFireInstant | TimedHostedService.cs:41-48 | A pass run exactly at the previous target instant picks that same instant again, with zero wait. This holds even when that target was clamped at `MaxValue`, because local now at `MaxValue` is still before the slot. |
| Scheduling.ConsecutivePassesOneDayApart | TimedHostedService.cs:41-48 | A second pass run after the first target, and at most a day later, picks a target exactly 24 hours after the first, unless that second target clamps at `MaxValue`. |
| Scheduling.EveningPassRollsToNextMorning | TimedHostedService.cs:28-48 | At 23:00 UTC on 15 January 2024, a 09:00 slot at offset zero targets 09:00 on 16 January, 10 hours on. |
| Scheduling.LateCallbackRollsToNextDay | TimedHostedService.cs:28-48 | A callback 15 ms after a 09:00 slot at offset zero targets 09:00 the next day, 24 hours less 15 ms on. |
| Scheduling.MorningPassRunsToday | TimedHostedService.cs:28-48 | At 06:00 UTC in a zone two hours ahead, a 09:00 slot targets 07:00 UTC the same day, one hour on. |
| HostedService.Construct | TimedHostedService.cs:7-16 | A new service keeps the configuration it was given, has a null `_timer` and has no timers at all. |
| HostedService.Arm | TimedHostedService.cs:50 | Creating a timer adds exactly one live timer, which `_timer` now refers to. Every earlier timer is unchanged. |
| HostedService.ScheduleDaily | TimedHostedService.cs:26-51 | The pass arms a timer exactly when the computation succeeds. A failing pass raises the computation's error and changes nothing. A successful pass appends one live timer whose due time is the computed wait, in [0, 24h + 14h), and points `_timer` at it. The previous timer stays live. |
| HostedService.StartAsync | TimedHostedService.cs:18-24 | Starting succeeds exactly when the pass computation succeeds. It then appends a live timer for the computed wait and points `_timer` at it, so a fresh service has exactly one live timer. Otherwise it raises the pass's own exception and leaves the service as it was. |
| HostedService.DoWork | TimedHostedService.cs:53-59 | A callback succeeds exactly when the pass computation succeeds. It then appends a live timer for the computed wait and points `_timer` at it, strictly growing the set of live timers. Otherwise it raises the pass's own exception and leaves the service as it was. |
| HostedService.StopAsync | TimedHostedService.cs:61-68 | With `_timer` null, nothing happens. On a disposed timer, `ObjectDisposedException` and nothing else. Otherwise the referenced timer is disarmed, not disposed, with its other fields kept, and every other timer is unchanged. |
| HostedService.StopTwice | TimedHostedService.cs:65 | A second `StopAsync` after a successful one raises nothing and changes nothing, as `Change(Timeout.Infinite, 0)` on an armed or disarmed timer does. |
| HostedService.Dispose | TimedHostedService.cs:70-73 | With `_timer` null, nothing happens. Otherwise only the referenced timer is disposed and every other timer is unchanged. |
| HostedService.DisposeIdempotent | TimedHostedService.cs:72 | Disposing twice is the same as disposing once. |
| HostedService.RunAsWritten | TimedHostedService.cs:50-58 | A run of passes never alters the timers already created, and keeps `_timer` on the newest one. |
| HostedService.RunAsWrittenKeepsAllLive | TimedHostedService.cs:50 | As written, a run never disarms or disposes any timer, so every timer it created is live. |
| HostedService.StopAfterRunLeavesEarlierTimersLive | TimedHostedService.cs:50-65 | After any run, `StopAsync` succeeds but silences only the newest timer. Every earlier timer is still live. |
| HostedService.StartThenCallbackLeavesTwoLiveTimers | TimedHostedService.cs:18-65 | Whenever a start and the next callback both schedule successfully, two timers are live, and `StopAsync` leaves the first one live. |
| HostedService.LeakExample | TimedHostedService.cs:18-65 | A start followed by one callback leaves two live timers, and `StopAsync` leaves the first one live. |
| HostedService.ScheduleDailyReplacing | TimedHostedService.cs:50 | The corrected pass disposes the referenced timer before it arms the new one, whose due time is the computed wait. It fails exactly when the pass computation fails, raising that computation's error. |
| HostedService.ReplacingKeepsOneLiveTimer | TimedHostedService.cs:50 | With the corrected pass, the only live timer, if any, is the referenced one. A successful pass leaves exactly the new timer live. |
| HostedService.ReleaseSilencesReplacingService | TimedHostedService.cs:61-73 | When only the referenced timer is live, `StopAsync` or `Dispose` leaves no timer that can fire. |
| HostedService.RunReplacing | TimedHostedService.cs:50-58 | A run of corrected passes keeps the configuration, keeps every earlier timer's due time, and keeps `_timer` on the newest timer. |
| HostedService.ReplacingRunStopsCleanly | TimedHostedService.cs:50-65 | After a start and any number of corrected re-arms, at most the referenced timer is live, and `StopAsync` leaves none. |

## Left out

- Logging (`LogInformation`), dependency injection and `IOptions` binding, the
  `CancellationToken` arguments and the returned `Task.CompletedTask`. These are glue with no
  effect on the schedule.
- `DateTime.UtcNow`: the current instant is a parameter of each pass.
- Real time-zone rules: the daylight-saving tables, and the `InvalidTimeZoneException` from a
  corrupt zone definition. A zone is a fixed offset. So `ConvertTimeToUtc` never meets a skipped
  local hour, and its `ArgumentException` for such times is not modelled.
- `DateTimeKind` (`Unspecified` on the constructed target, `Utc` on now) is not modelled. The
  conversions treat their argument as the kind the call expects.
- The timer's firing, its one-day period, the callback running on a thread-pool thread, and
  overlapping callbacks. A timer is only live, disarmed or disposed.
- Garbage collection: `Live` ignores that .NET may finalize a timer nothing references, which
  stops it. An overwritten timer therefore fires only until it is finalized, at a time the
  runtime chooses; the model treats it as armed for good.
- A missing `TimeZoneId` key: .NET raises `ArgumentNullException` for a null identifier, which a
  `string` cannot represent. Only the unknown-identifier error is modelled.
- The timer constructor's conversion of the wait to whole milliseconds, and its range check.
  Every wait is proved to be in [0, 38 h), far below that limit (about 49.7 days).
- An exception escaping `DoWork` on the timer thread, which ends the process in .NET. In the
  model a failing pass only leaves the state as it was.
- Scheduling.WaitIsLocalGap: requires that neither conversion is clamped at the ends of the
  `DateTime` range. At those ends the platform saturates, and the equality does not hold there.
- Scheduling.ConsecutivePassesOneDayApart: requires that the second target does not clamp at
  `MaxValue` on conversion to UTC. A clamped target is no longer a whole day after the first.
- Scheduling.FiresNowOnEquality: requires that no conversion is clamped. A clamped target can
  give a zero wait with now not on the slot.

## Findings

| source | as written | input that shows it | evidently intended | confidence | as-written member | corrected member |
|---|---|---|---|---|---|---|
| TimedHostedService.cs:50 | Each pass assigns a new one-day-period `Timer` to `_timer` without disposing the previous one. `StopAsync` (line 65) and `Dispose` (line 72) then reach only the newest timer. | `StartAsync` at 2024-01-15T23:00Z, callback at 2024-01-16T09:00:00.015Z, then `StopAsync`: timer 0 is still armed and out of reach of `StopAsync` and `Dispose`, firing until it is finalized. | `StopAsync` calls `Change(Timeout.Infinite, 0)` on `_timer`, evidently to stop the daily run, and `Dispose` releases `_timer`. Both only achieve that if each pass replaces the previous timer, so at most the referenced timer is live. | high; not executed | HostedService.StopAfterRunLeavesEarlierTimersLive | HostedService.ReplacingRunStopsCleanly |

=== FILE: calendar.dfy ===
/**
  The proleptic Gregorian calendar over the years a .NET `DateTime` can hold (1 to 9999),
  with the day numbering `DateTime` uses internally: day 0 is 1 January of year 1.
 */
module Calendar {
  import opened Results

  const MinYear := 1
  const MaxYear := 9999

  /** Day number of 31 December 9999, the last representable date. */
  const LastDayNumber := 3652058

  predicate IsLeapYear(year: int) {
    year % 4 == 0 && (year % 100 != 0 || year % 400 == 0)
  }

  function DaysInYear(year: int): int {
    if IsLeapYear(year) then 366 else 365
  }

  function DaysInMonth(year: int, month: int): int
    requires 1 <= month <= 12
  {
    if month == 2 then (if IsLeapYear(year) then 29 else 28)
    else if month == 4 || month == 6 || month == 9 || month == 11 then 30
    else 31
  }

  /** Days before the first of each month, in common and in leap years. */
  const CumulativeCommon: seq<int> := [0, 31, 59, 90, 120, 151, 181, 212, 243, 273, 304, 334, 365]
  const CumulativeLeap: seq<int> := [0, 31, 60, 91, 121, 152, 182, 213, 244, 274, 305, 335, 366]

  function Cumulative(year: int): (table: seq<int>)
    ensures |table| == 13
  {
    if IsLeapYear(year) then CumulativeLeap else CumulativeCommon
  }

  /** A civil date. */
  datatype Date = Date(year: int, month: int, day: int) {
    predicate Valid() {
      && MinYear <= year <= MaxYear
      && 1 <= month <= 12
      && 1 <= day <= DaysInMonth(year, month)
    }
  }

  const FirstDate := Date(MinYear, 1, 1)
  const LastDate := Date(MaxYear, 12, 31)

  /** Days from 1 January of year 1 to 1 January of `year`, in the closed form .NET uses. */
  function DaysBeforeYear(year: int): int {
    var y := year - 1;
    y * 365 + y / 4 - y / 100 + y / 400
  }

  function DaysBeforeMonth(year: int, month: int): int
    requires 1 <= month <= 12
  {
    Cumulative(year)[month - 1]
  }

  /** Days elapsed since 1 January of year 1. */
  function DayNumber(d: Date): int
    requires d.Valid()
  {
    DaysBeforeYear(d.year) + DaysBeforeMonth(d.year, d.month) + d.day - 1
  }

  /** Lexicographic order on (year, month, day). */
  predicate DateBefore(a: Date, b: Date) {
    || a.year < b.year
    || (a.year == b.year && a.month < b.month)
    || (a.year == b.year && a.month == b.month && a.day < b.day)
  }

  /** The following calendar day; `None` for the last representable date. */
  function NextDay(d: Date): (r: Option<Date>)
    requires d.Valid()
    ensures r.Some? ==> r.value.Valid()
    ensures r.None? <==> d == LastDate
  {
    if d.day < DaysInMonth(d.year, d.month) then Some(Date(d.year, d.month, d.day + 1))
    else if d.month < 12 then Some(Date(d.year, d.month + 1, 1))
    else if d.year < MaxYear then Some(Date(d.year + 1, 1, 1))
    else None
  }

  /** The preceding calendar day; `None` for the first representable date. */
  function PrevDay(d: Date): (r: Option<Date>)
    requires d.Valid()
    ensures r.Some? ==> r.value.Valid()
    ensures r.None? <==> d == FirstDate
  {
    if d.day > 1 then Some(Date(d.year, d.month, d.day - 1))
    else if d.month > 1 then Some(Date(d.year, d.month - 1, DaysInMonth(d.year, d.month - 1)))
    else if d.year > MinYear then Some(Date(d.year - 1, 12, 31))
    else None
  }

  // ---------------------------------------------------------------------------
  // Day numbering: the closed form agrees with counting day by day.

  /** `(n + 1) / k` exceeds `n / k` by one exactly when `k` divides `n + 1`; stated for the
      three divisors of the Gregorian rule. */
  lemma DivStep(n: int, k: int)
    requires k == 4 || k == 100 || k == 400
    ensures (n + 1) / k == n / k + (if (n + 1) % k == 0 then 1 else 0)
  {
  }

  /** Each year contributes exactly its own length to the closed form. */
  lemma {:induction false} DaysBeforeNextYear(year: int)
    ensures DaysBeforeYear(year + 1) == DaysBeforeYear(year) + DaysInYear(year)
  {
    var y := year - 1;
    DivStep(y, 4);
    DivStep(y, 100);
    DivStep(y, 400);
    assert (y + 1) % 4 == year % 4;
    assert (y + 1) % 100 == year % 100;
    assert (y + 1) % 400 == year % 400;
    if year % 100 == 0 {
      assert year % 4 == 0;
    }
    if year % 400 == 0 {
      assert year % 100 == 0;
    }
  }

  /** The cumulative table grows by the length of each month. */
  lemma MonthStep(year: int, month: int)
    requires 1 <= month <= 12
    ensures Cumulative(year)[month] == Cumulative(year)[month - 1] + DaysInMonth(year, month)
  {
  }

  lemma {:induction false} CumulativeMonotone(year: int, i: int, j: int)
    requires 0 <= i <= j <= 12
    ensures Cumulative(year)[i] <= Cumulative(year)[j]
    decreases j - i
  {
    if i < j {
      MonthStep(year, j);
      CumulativeMonotone(year, i, j - 1);
    }
  }

  lemma {:induction false} DaysBeforeYearMonotone(a: int, b: int)
    requires a <= b
    ensures DaysBeforeYear(a) <= DaysBeforeYear(b)
    decreases b - a
  {
    if a < b {
      DaysBeforeNextYear(b - 1);
      DaysBeforeYearMonotone(a, b - 1);
    }
  }

  /** A valid date's number lies within its own year's span. */
  lemma DayNumberWithinYear(d: Date)
    requires d.Valid()
    ensures DaysBeforeYear(d.year) <= DayNumber(d) < DaysBeforeYear(d.year + 1)
  {
    MonthStep(d.year, d.month);
    CumulativeMonotone(d.year, d.month, 12);
    DaysBeforeNextYear(d.year);
  }

  /** Lexicographic order on valid dates is exactly the order of their day numbers. */
  lemma DateBeforeIffDayNumber(a: Date, b: Date)
    requires a.Valid() && b.Valid()
    ensures DateBefore(a, b) <==> DayNumber(a) < DayNumber(b)
  {
    DayNumberWithinYear(a);
    DayNumberWithinYear(b);
    if a.year < b.year {
      DaysBeforeYearMonotone(a.year + 1, b.year);
    } else if b.year < a.year {
      DaysBeforeYearMonotone(b.year + 1, a.year);
    } else if a.month < b.month {
      MonthStep(a.year, a.month);
      CumulativeMonotone(a.year, a.month, b.month - 1);
    } else if b.month < a.month {
      MonthStep(b.year, b.month);
      CumulativeMonotone(b.year, b.month, a.month - 1);
    }
  }

  /** Distinct valid dates have distinct day numbers. */
  lemma DayNumberInjective(a: Date, b: Date)
    requires a.Valid() && b.Valid()
    ensures DayNumber(a) == DayNumber(b) ==> a == b
  {
    DateBeforeIffDayNumber(a, b);
    DateBeforeIffDayNumber(b, a);
  }

  /** Every valid date is numbered between the first and the last representable date. */
  lemma DayNumberRange(d: Date)
    requires d.Valid()
    ensures 0 <= DayNumber(d) <= LastDayNumber
    ensures DayNumber(d) == 0 <==> d == FirstDate
    ensures DayNumber(d) == LastDayNumber <==> d == LastDate
  {
    DateBeforeIffDayNumber(FirstDate, d);
    DateBeforeIffDayNumber(d, LastDate);
    DayNumberInjective(d, FirstDate);
    DayNumberInjective(d, LastDate);
  }

  /** The next day is numbered one higher: month and year roll over with correct lengths. */
  lemma NextDayIsSuccessor(d: Date)
    requires d.Valid() && d != LastDate
    ensures NextDay(d).Some?
    ensures DayNumber(NextDay(d).value) == DayNumber(d) + 1
  {
    if d.day == DaysInMonth(d.year, d.month) {
      MonthStep(d.year, d.month);
      if d.month == 12 {
        DaysBeforeNextYear(d.year);
      }
    }
  }

  /** The previous day is numbered one lower. */
  lemma PrevDayIsPredecessor(d: Date)
    requires d.Valid() && d != FirstDate
    ensures PrevDay(d).Some?
    ensures DayNumber(PrevDay(d).value) == DayNumber(d) - 1
  {
    if d.day == 1 {
      if d.month > 1 {
        MonthStep(d.year, d.month - 1);
      } else {
        DaysBeforeNextYear(d.year - 1);
      }
    }
  }

  /** NextDay and PrevDay undo each other. */
  lemma NextPrevRoundTrip(d: Date)
    requires d.Valid() && d != LastDate
    ensures PrevDay(NextDay(d).value) == Some(d)
  {
    var n := NextDay(d).value;
    NextDayIsSuccessor(d);
    DayNumberRange(n);
    PrevDayIsPredecessor(n);
    DayNumberInjective(PrevDay(n).value, d);
  }

  /** The leap-day rule: 28 February is followed by 29 February exactly in leap years. */
  lemma {:induction false} LeapDayRollover(year: int)
    requires MinYear <= year <= MaxYear
    ensures NextDay(Date(year, 2, 28)) == Some(if IsLeapYear(year) then Date(year, 2, 29) else Date(year, 3, 1))
    ensures year < MaxYear ==> NextDay(Date(year, 12, 31)) == Some(Date(year + 1, 1, 1))
  {
  }
}

=== FILE: date_time.dfy ===
/**
  A .NET `DateTime` as a civil date plus the time of day in 100-nanosecond ticks.
  Its tick count (`Ticks`) is the number of ticks since midnight, 1 January of year 1,
  and is what `DateTime` compares and subtracts.
 */
module DateTimes {
  import opened Results
  import opened Calendar

  const TicksPerSecond := 10_000_000
  const TicksPerMinute := 60 * TicksPerSecond
  const TicksPerHour := 60 * TicksPerMinute
  const TicksPerDay := 24 * TicksPerHour

  /** Tick count of `DateTime.MaxValue`, 23:59:59.9999999 on 31 December 9999. */
  const MaxTicks := 3_155_378_975_999_999_999

  /** The one error `DateTime` construction and arithmetic raise here. */
  datatype DateTimeError = ArgumentOutOfRange

  datatype DateTime = DateTime(date: Date, tick: int) {
    predicate Valid() {
      date.Valid() && 0 <= tick < TicksPerDay
    }

    function Hour(): int {
      tick / TicksPerHour
    }

    function Minute(): int {
      tick / TicksPerMinute % 60
    }

    function Second(): int {
      tick / TicksPerSecond % 60
    }
  }

  const MinValue := DateTime(FirstDate, 0)
  const MaxValue := DateTime(LastDate, TicksPerDay - 1)

  /** Ticks since midnight, 1 January of year 1. */
  function Ticks(dt: DateTime): int
    requires dt.Valid()
  {
    DayNumber(dt.date) * TicksPerDay + dt.tick
  }

  /** Lexicographic order: date first, then time of day. */
  predicate Before(a: DateTime, b: DateTime) {
    DateBefore(a.date, b.date) || (a.date == b.date && a.tick < b.tick)
  }

  /** Ticks of a time of day given in whole hours, minutes and seconds. */
  function TimeToTicks(hour: int, minute: int, second: int): int {
    (hour * 3600 + minute * 60 + second) * TicksPerSecond
  }

  /**
    The constructor `new DateTime(year, month, day, hour, minute, second)`: it rejects any
    component outside its range with an `ArgumentOutOfRangeException`.
   */
  function FromParts(year: int, month: int, day: int, hour: int, minute: int, second: int)
    : (r: Result<DateTime, DateTimeError>)
    ensures r.Success? <==>
      Date(year, month, day).Valid() && 0 <= hour < 24 && 0 <= minute < 60 && 0 <= second < 60
    ensures r.Success? ==>
      && r.value.Valid()
      && r.value.date == Date(year, month, day)
      && r.value.Hour() == hour
      && r.value.Minute() == minute
      && r.value.Second() == second
      && r.value.tick % TicksPerSecond == 0
  {
    if Date(year, month, day).Valid() && 0 <= hour < 24 && 0 <= minute < 60 && 0 <= second < 60 then
      TimeToTicksFields(hour, minute, second);
      Success(DateTime(Date(year, month, day), TimeToTicks(hour, minute, second)))
    else
      Failure(ArgumentOutOfRange)
  }

  /**
    `dt.AddDays(1)`: the same time of day on the next calendar day, or an
    `ArgumentOutOfRangeException` when that would pass `DateTime.MaxValue`.
   */
  function AddOneDay(dt: DateTime): (r: Result<DateTime, DateTimeError>)
    requires dt.Valid()
    ensures r.Success? <==> Ticks(dt) + TicksPerDay <= MaxTicks
    ensures r.Success? ==>
      && r.value.Valid()
      && r.value.tick == dt.tick
      && Ticks(r.value) == Ticks(dt) + TicksPerDay
  {
    DayNumberRange(dt.date);
    match NextDay(dt.date)
    case None => Failure(ArgumentOutOfRange)
    case Some(next) =>
      NextDayIsSuccessor(dt.date);
      Success(DateTime(next, dt.tick))
  }

  /**
    Moves `dt` by fewer than 24 hours' worth of ticks in either direction, crossing at most one
    day boundary; `None` when the result would leave the `DateTime` range.
   */
  function Shift(dt: DateTime, delta: int): (r: Option<DateTime>)
    requires dt.Valid() && -TicksPerDay < delta < TicksPerDay
  {
    var t := dt.tick + delta;
    if t >= TicksPerDay then
      match NextDay(dt.date)
      case None => None
      case Some(next) => Some(DateTime(next, t - TicksPerDay))
    else if t < 0 then
      match PrevDay(dt.date)
      case None => None
      case Some(prev) => Some(DateTime(prev, t + TicksPerDay))
    else
      Some(DateTime(dt.date, t))
  }

  /** Shifting moves the tick count by exactly `delta`, and fails only outside the range. */
  lemma ShiftTicks(dt: DateTime, delta: int)
    requires dt.Valid() && -TicksPerDay < delta < TicksPerDay
    ensures Shift(dt, delta).Some? <==> 0 <= Ticks(dt) + delta <= MaxTicks
    ensures Shift(dt, delta).Some? ==>
      Shift(dt, delta).value.Valid() && Ticks(Shift(dt, delta).value) == Ticks(dt) + delta
  {
    DayNumberRange(dt.date);
    var t := dt.tick + delta;
    var r := Shift(dt, delta);
    if t >= TicksPerDay {
      if dt.date == LastDate {
        assert r.None?;
        assert Ticks(dt) + delta >= (LastDayNumber + 1) * TicksPerDay;
      } else {
        ShiftForward(dt, delta);
        TicksRange(r.value);
      }
    } else if t < 0 {
      if dt.date == FirstDate {
        assert r.None?;
        assert Ticks(dt) + delta < 0;
      } else {
        ShiftBackward(dt, delta);
        TicksRange(r.value);
      }
    } else {
      assert r == Some(DateTime(dt.date, t));
      TicksRange(r.value);
    }
  }

  lemma ShiftForward(dt: DateTime, delta: int)
    requires dt.Valid() && delta < TicksPerDay && dt.tick + delta >= TicksPerDay
    requires dt.date != LastDate
    ensures NextDay(dt.date).Some?
    ensures Ticks(DateTime(NextDay(dt.date).value, dt.tick + delta - TicksPerDay)) == Ticks(dt) + delta
  {
    NextDayIsSuccessor(dt.date);
    var n := DayNumber(dt.date);
    var next := NextDay(dt.date).value;
    assert DayNumber(next) == n + 1;
    DayTicksStep(n, dt.tick + delta - TicksPerDay);
  }

  lemma ShiftBackward(dt: DateTime, delta: int)
    requires dt.Valid() && -TicksPerDay < delta && dt.tick + delta < 0
    requires dt.date != FirstDate
    ensures PrevDay(dt.date).Some?
    ensures Ticks(DateTime(PrevDay(dt.date).value, dt.tick + delta + TicksPerDay)) == Ticks(dt) + delta
  {
    PrevDayIsPredecessor(dt.date);
    var n := DayNumber(dt.date);
    var prev := PrevDay(dt.date).value;
    assert DayNumber(prev) == n - 1;
    DayTicksStep(n - 1, dt.tick + delta);
  }

  /** One more day number is one more day's worth of ticks. */
  lemma DayTicksStep(n: int, t: int)
    ensures (n + 1) * TicksPerDay + t == n * TicksPerDay + (t + TicksPerDay)
  {
  }

  // ---------------------------------------------------------------------------
  // Properties of the tick count.

  /** The hour, minute and second fields read back what `TimeToTicks` was given. */
  lemma TimeToTicksFields(hour: int, minute: int, second: int)
    requires 0 <= hour < 24 && 0 <= minute < 60 && 0 <= second < 60
    ensures 0 <= TimeToTicks(hour, minute, second) < TicksPerDay
    ensures DateTime(FirstDate, TimeToTicks(hour, minute, second)).Hour() == hour
    ensures DateTime(FirstDate, TimeToTicks(hour, minute, second)).Minute() == minute
    ensures DateTime(FirstDate, TimeToTicks(hour, minute, second)).Second() == second
    ensures TimeToTicks(hour, minute, second) % TicksPerSecond == 0
  {
    var t := TimeToTicks(hour, minute, second);
    var secs := hour * 3600 + minute * 60 + second;
    assert t == secs * TicksPerSecond;
    assert t / TicksPerSecond == secs;
    assert t % TicksPerSecond == 0;
    assert secs % 60 == second && secs / 60 == hour * 60 + minute;
    assert (hour * 60 + minute) % 60 == minute && (hour * 60 + minute) / 60 == hour;
    assert t / TicksPerMinute == secs / 60;
    assert t / TicksPerHour == secs / 3600;
    assert secs / 3600 == hour;
  }

  /** Every valid `DateTime` lies between `MinValue` and `MaxValue`, which are its extremes. */
  lemma TicksRange(dt: DateTime)
    requires dt.Valid()
    ensures 0 <= Ticks(dt) <= MaxTicks
    ensures Ticks(dt) == 0 <==> dt == MinValue
    ensures Ticks(dt) == MaxTicks <==> dt == MaxValue
  {
    DayNumberRange(dt.date);
  }

  /** Comparing `DateTime` values by tick count is the lexicographic order of date and time. */
  lemma BeforeIffTicks(a: DateTime, b: DateTime)
    requires a.Valid() && b.Valid()
    ensures Before(a, b) <==> Ticks(a) < Ticks(b)
  {
    DateBeforeIffDayNumber(a.date, b.date);
    DayNumberInjective(a.date, b.date);
  }

  /** The tick count determines the `DateTime`. */
  lemma TicksInjective(a: DateTime, b: DateTime)
    requires a.Valid() && b.Valid()
    ensures Ticks(a) == Ticks(b) ==> a == b
  {
    BeforeIffTicks(a, b);
    BeforeIffTicks(b, a);
    DateBeforeIffDayNumber(a.date, b.date);
    DateBeforeIffDayNumber(b.date, a.date);
    DayNumberInjective(a.date, b.date);
  }

  /** Two values with the same time of day are a whole number of days apart. */
  lemma SameTimeOfDayWholeDays(a: DateTime, b: DateTime)
    requires a.Valid() && b.Valid() && a.tick == b.tick
    ensures Ticks(b) - Ticks(a) == (DayNumber(b.date) - DayNumber(a.date)) * TicksPerDay
  {
  }

  /** A later value with the same time of day, less than two days on, is exactly one day on. */
  lemma SameTimeOfDayNextDay(a: DateTime, b: DateTime)
    requires a.Valid() && b.Valid() && a.tick == b.tick
    requires Ticks(a) < Ticks(b) < Ticks(a) + 2 * TicksPerDay
    ensures Ticks(b) == Ticks(a) + TicksPerDay
  {
    SameTimeOfDayWholeDays(a, b);
    OneWholeDay(Ticks(b) - Ticks(a), DayNumber(b.date) - DayNumber(a.date));
  }

  /** A positive whole number of days shorter than two days is one day. */
  lemma OneWholeDay(diff: int, days: int)
    requires diff == days * TicksPerDay && 0 < diff < 2 * TicksPerDay
    ensures diff == TicksPerDay
  {
  }

  /** A value within the last day's worth of ticks below `MaxTicks` falls on 31 December 9999. */
  lemma OnLastDay(dt: DateTime)
    requires dt.Valid() && Ticks(dt) > MaxTicks - TicksPerDay
    ensures dt.date == LastDate
  {
    DayNumberRange(dt.date);
    if DayNumber(dt.date) < LastDayNumber {
      BeforeLastDay(DayNumber(dt.date), dt.tick);
    }
  }

  /** Any tick of a day numbered below the last is at least one day below `MaxTicks`. */
  lemma BeforeLastDay(n: int, t: int)
    requires n < LastDayNumber && t < TicksPerDay
    ensures n * TicksPerDay + t <= MaxTicks - TicksPerDay
  {
  }
}

=== FILE: hosted_service.dfy ===
/**
  The `_timer` field of `TimedHostedService` and the lifecycle calls that touch it.
  Every timer the service ever creates is kept in `timers` (in creation order), because a timer
  whose reference is overwritten stays armed, out of reach of `StopAsync` and `Dispose`, and
  fires until the runtime finalizes it; `current` is the one `_timer` refers to.
  Real time, firing, the one-day period and finalization are not modelled: a timer is either
  live (armed), disarmed by `Change(Timeout.Infinite, 0)`, or disposed.
 */
module HostedService {
  import opened Results
  import opened DateTimes
  import opened TimeZones
  import opened Scheduling

  datatype TimerState = TimerState(dueTime: int, disarmed: bool, disposed: bool) {
    /** The timer will still invoke the callback. */
    predicate Live() {
      !disarmed && !disposed
    }
  }

  datatype Service = Service(config: ScheduleConfig, timers: seq<TimerState>, current: Option<nat>) {
    predicate Valid() {
      current.Some? ==> current.value < |timers|
    }
  }

  /** What a lifecycle call can raise. */
  datatype Fault = SchedulingFailed(error: ScheduleError) | ObjectDisposed

  /** The state after a call, and the exception it raised, if any. */
  datatype Step = Step(service: Service, fault: Option<Fault>)

  /** A freshly constructed service: `_timer` is null and no timer exists. */
  function Construct(config: ScheduleConfig): (s: Service)
    ensures s.Valid() && s.current.None? && LiveTimers(s) == {}
    ensures s.config == config && s.timers == []
  {
    Service(config, [], None)
  }

  /** Indices of the timers that are still armed. */
  function LiveTimers(s: Service): set<int> {
    set i | 0 <= i < |s.timers| && s.timers[i].Live()
  }

  /** At most one timer is live, and it is the one `_timer` refers to. */
  predicate OnlyCurrentLive(s: Service) {
    forall i :: 0 <= i < |s.timers| && s.timers[i].Live() ==> s.current == Some(i)
  }

  /** `timers` agree everywhere except possibly at index `k`. */
  predicate SameTimersExcept(a: seq<TimerState>, b: seq<TimerState>, k: int) {
    |a| == |b| && forall i :: 0 <= i < |a| && i != k ==> a[i] == b[i]
  }

  /** `_timer = new Timer(DoWork, null, timeToWait, ...)`: a new live timer, now the referenced one. */
  function Arm(s: Service, dueTime: int): (r: Service)
    requires s.Valid()
    ensures r.Valid() && r.config == s.config
    ensures |r.timers| == |s.timers| + 1 && r.timers[..|s.timers|] == s.timers
    ensures r.current == Some(|s.timers|) && r.timers[|s.timers|] == TimerState(dueTime, false, false)
    ensures LiveTimers(r) == LiveTimers(s) + {|s.timers|}
  {
    var r := s.(timers := s.timers + [TimerState(dueTime, false, false)], current := Some(|s.timers|));
    assert forall i :: 0 <= i < |s.timers| ==> r.timers[i] == s.timers[i];
    r
  }

  /**
    One pass of `ScheduleDailyTaskBasedOnUserSpecifiedTime` as written: on success a new timer is
    armed with the computed wait and `_timer` is overwritten; the previous timer is neither
    disarmed nor disposed. On failure the exception escapes before `_timer` is assigned.
   */
  function ScheduleDaily(s: Service, zones: ZoneTable, nowUtc: DateTime): (r: Step)
    requires s.Valid() && nowUtc.Valid()
    ensures r.service.Valid()
    ensures r.fault.Some? ==> r.service == s
    ensures r.fault.None? <==> ComputeSchedule(s.config, zones, nowUtc).Success?
    ensures r.fault.Some? ==> r.fault == Some(SchedulingFailed(ComputeSchedule(s.config, zones, nowUtc).error))
    ensures s.config.timeZoneId !in zones ==> r.fault == Some(SchedulingFailed(ZoneLookupFailed(TimeZoneNotFound(s.config.timeZoneId))))
    ensures !ValidTimeOfDay(s.config) ==> r.fault.Some?
    ensures r.fault.None? ==>
      && r.service.config == s.config
      && |r.service.timers| == |s.timers| + 1
      && r.service.timers[..|s.timers|] == s.timers
      && r.service.current == Some(|s.timers|)
      && r.service.timers[|s.timers|] == TimerState(ComputeSchedule(s.config, zones, nowUtc).value.timeToWait, false, false)
      && 0 <= r.service.timers[|s.timers|].dueTime < TicksPerDay + MaxOffset
    ensures LiveTimers(r.service) == LiveTimers(s) + (if r.fault.None? then {|s.timers|} else {})
  {
    match ComputeSchedule(s.config, zones, nowUtc)
    case Failure(e) => Step(s, Some(SchedulingFailed(e)))
    case Success(plan) =>
      WaitBounds(s.config, zones, nowUtc);
      Step(Arm(s, plan.timeToWait), None)
  }

  /** `StartAsync`: log, then one scheduling pass. */
  function StartAsync(s: Service, zones: ZoneTable, nowUtc: DateTime): (r: Step)
    requires s.Valid() && nowUtc.Valid()
    ensures r.service.Valid()
    ensures r.fault.Some? ==> r.service == s
    ensures r.fault.None? <==> ComputeSchedule(s.config, zones, nowUtc).Success?
    ensures r.fault.Some? ==> r.fault == Some(SchedulingFailed(ComputeSchedule(s.config, zones, nowUtc).error))
    ensures r.fault.None? ==>
      && r.service.current == Some(|s.timers|)
      && r.service.timers == s.timers + [TimerState(ComputeSchedule(s.config, zones, nowUtc).value.timeToWait, false, false)]
    ensures s.timers == [] && r.fault.None? ==> LiveTimers(r.service) == {0} && r.service.current == Some(0)
  {
    ScheduleDaily(s, zones, nowUtc)
  }

  /** `DoWork`, the timer callback: log, then one scheduling pass at the time it runs. */
  function DoWork(s: Service, zones: ZoneTable, nowUtc: DateTime): (r: Step)
    requires s.Valid() && nowUtc.Valid()
    ensures r.service.Valid()
    ensures r.fault.Some? ==> r.service == s
    ensures r.fault.None? <==> ComputeSchedule(s.config, zones, nowUtc).Success?
    ensures r.fault.Some? ==> r.fault == Some(SchedulingFailed(ComputeSchedule(s.config, zones, nowUtc).error))
    ensures r.fault.None? ==>
      && r.service.current == Some(|s.timers|)
      && r.service.timers == s.timers + [TimerState(ComputeSchedule(s.config, zones, nowUtc).value.timeToWait, false, false)]
    ensures r.fault.None? ==> LiveTimers(s) < LiveTimers(r.service)
  {
    ScheduleDaily(s, zones, nowUtc)
  }

  /**
    `StopAsync`: `_timer?.Change(Timeout.Infinite, 0)`. Nothing happens when `_timer` is null;
    a disposed timer raises `ObjectDisposedException`; otherwise only that timer is disarmed.
   */
  function StopAsync(s: Service): (r: Step)
    requires s.Valid()
    ensures r.service.Valid()
    ensures s.current.None? ==> r == Step(s, None)
    ensures r.fault.Some? <==> s.current.Some? && s.timers[s.current.value].disposed
    ensures r.fault.Some? ==> r.fault == Some(ObjectDisposed)
    ensures r.fault.Some? ==> r.service == s
    ensures r.service.config == s.config && r.service.current == s.current
    ensures s.current.Some? ==> SameTimersExcept(r.service.timers, s.timers, s.current.value)
    ensures r.fault.None? && s.current.Some? ==>
      r.service.timers[s.current.value] == s.timers[s.current.value].(disarmed := true)
    ensures r.fault.None? && s.current.Some? ==> !r.service.timers[s.current.value].Live()
    ensures LiveTimers(r.service) == LiveTimers(s) - (if s.current.Some? then {s.current.value} else {})
  {
    match s.current
    case None => Step(s, None)
    case Some(i) =>
      if s.timers[i].disposed then Step(s, Some(ObjectDisposed))
      else Step(s.(timers := s.timers[i := s.timers[i].(disarmed := true)]), None)
  }

  /** Disarming is idempotent: a second `StopAsync` raises nothing and changes nothing. */
  lemma StopTwice(s: Service)
    requires s.Valid() && StopAsync(s).fault.None?
    ensures StopAsync(StopAsync(s).service) == StopAsync(s)
  {
  }

  /** `Dispose`: `_timer?.Dispose()`; disposing twice is harmless. */
  function Dispose(s: Service): (r: Service)
    requires s.Valid()
    ensures r.Valid()
    ensures s.current.None? ==> r == s
    ensures r.config == s.config && r.current == s.current
    ensures s.current.Some? ==> SameTimersExcept(r.timers, s.timers, s.current.value)
    ensures s.current.Some? ==> r.timers[s.current.value].disposed
    ensures LiveTimers(r) == LiveTimers(s) - (if s.current.Some? then {s.current.value} else {})
  {
    match s.current
    case None => s
    case Some(i) => s.(timers := s.timers[i := s.timers[i].(disposed := true)])
  }

  /** Disposing is idempotent. */
  lemma DisposeIdempotent(s: Service)
    requires s.Valid()
    ensures Dispose(Dispose(s)) == Dispose(s)
  {
  }

  // ---------------------------------------------------------------------------
  // Runs: a start followed by callbacks, one scheduling pass per instant.

  predicate AllValid(times: seq<DateTime>) {
    forall k :: 0 <= k < |times| ==> times[k].Valid()
  }

  /** `_timer` refers to the newest timer, and is null only before the first one. */
  predicate CurrentIsNewest(s: Service) {
    && (s.current.None? <==> s.timers == [])
    && (s.current.Some? ==> s.current.value == |s.timers| - 1)
  }

  /** Every timer created so far is still armed. */
  predicate AllLive(s: Service) {
    forall i :: 0 <= i < |s.timers| ==> s.timers[i].Live()
  }

  /**
    `StartAsync` and then the callbacks, as written, at the instants `times`. A pass that
    throws leaves the field as it was.
   */
  function RunAsWritten(s: Service, zones: ZoneTable, times: seq<DateTime>): (r: Service)
    requires s.Valid() && AllValid(times)
    ensures r.Valid() && r.config == s.config
    ensures |s.timers| <= |r.timers| && r.timers[..|s.timers|] == s.timers
    ensures CurrentIsNewest(s) ==> CurrentIsNewest(r)
    decreases |times|
  {
    if times == [] then s
    else RunAsWritten(ScheduleDaily(s, zones, times[0]).service, zones, times[1..])
  }

  /** As written, nothing ever disarms a timer during a run: every timer created stays live. */
  lemma {:induction false} RunAsWrittenKeepsAllLive(s: Service, zones: ZoneTable, times: seq<DateTime>)
    requires s.Valid() && AllValid(times) && AllLive(s)
    ensures AllLive(RunAsWritten(s, zones, times))
    decreases |times|
  {
    if times != [] {
      var next := ScheduleDaily(s, zones, times[0]).service;
      assert AllLive(next) by {
        forall i | 0 <= i < |next.timers|
          ensures next.timers[i].Live()
        {
          if i < |s.timers| {
            assert next.timers[..|s.timers|][i] == s.timers[i];
          }
        }
      }
      RunAsWrittenKeepsAllLive(next, zones, times[1..]);
    }
  }

  /**
    As written, stopping after a run disarms only the newest timer: every timer created by an
    earlier pass is still armed, and no later call can reach it to stop it.
   */
  lemma StopAfterRunLeavesEarlierTimersLive(config: ScheduleConfig, zones: ZoneTable, times: seq<DateTime>)
    requires AllValid(times)
    ensures var r := RunAsWritten(Construct(config), zones, times);
      && StopAsync(r).fault.None?
      && forall i :: i in LiveTimers(StopAsync(r).service) <==> 0 <= i < |r.timers| - 1
  {
    var r := RunAsWritten(Construct(config), zones, times);
    RunAsWrittenKeepsAllLive(Construct(config), zones, times);
    var stopped := StopAsync(r).service;
    forall i
      ensures i in LiveTimers(stopped) <==> 0 <= i < |r.timers| - 1
    {
      if 0 <= i < |r.timers| - 1 {
        assert i in LiveTimers(r);
      }
    }
  }

  /**
    A start and one callback that both schedule successfully leave two live timers, and
    `StopAsync` then disarms only the second.
   */
  lemma StartThenCallbackLeavesTwoLiveTimers(config: ScheduleConfig, zones: ZoneTable, t1: DateTime, t2: DateTime)
    requires t1.Valid() && t2.Valid()
    requires ComputeSchedule(config, zones, t1).Success? && ComputeSchedule(config, zones, t2).Success?
    ensures var started := StartAsync(Construct(config), zones, t1);
      var fired := DoWork(started.service, zones, t2);
      && started.fault.None? && fired.fault.None?
      && LiveTimers(fired.service) == {0, 1}
      && LiveTimers(StopAsync(fired.service).service) == {0}
  {
    var started := StartAsync(Construct(config), zones, t1);
    var fired := DoWork(started.service, zones, t2);
    assert fired == ScheduleDaily(started.service, zones, t2);
    assert LiveTimers(fired.service) == {0} + {1};
  }

  /**
    A concrete run: `StartAsync` at 23:00 UTC on 15 January 2024 and the callback 15 ms after
    09:00 UTC the next day, for a 09:00 slot in a zone at offset zero. Two timers are then live, and
    `StopAsync` disarms only the second.
   */
  lemma LeakExample()
    ensures var config := ScheduleConfig("UTC", 9, 0);
      var zones: ZoneTable := map["UTC" := 0];
      var started := StartAsync(Construct(config), zones, DateTime(Calendar.Date(2024, 1, 15), 23 * TicksPerHour));
      var fired := DoWork(started.service, zones, DateTime(Calendar.Date(2024, 1, 16), 9 * TicksPerHour + 150_000));
      && started.fault.None? && fired.fault.None?
      && LiveTimers(fired.service) == {0, 1}
      && LiveTimers(StopAsync(fired.service).service) == {0}
  {
    EveningPassRollsToNextMorning();
    LateCallbackRollsToNextDay();
    StartThenCallbackLeavesTwoLiveTimers(ScheduleConfig("UTC", 9, 0), map["UTC" := 0],
      DateTime(Calendar.Date(2024, 1, 15), 23 * TicksPerHour),
      DateTime(Calendar.Date(2024, 1, 16), 9 * TicksPerHour + 150_000));
  }

  // ---------------------------------------------------------------------------
  // The evidently intended pass: replace the timer instead of leaking it.

  /**
    The timer `_timer` refers to is disposed when the new one is armed, so the service never
    holds more than one live timer.
   */
  function ScheduleDailyReplacing(s: Service, zones: ZoneTable, nowUtc: DateTime): (r: Step)
    requires s.Valid() && nowUtc.Valid()
    ensures r.service.Valid()
    ensures r.fault.Some? ==> r.service == s
    ensures r.fault.None? <==> ComputeSchedule(s.config, zones, nowUtc).Success?
    ensures r.fault.Some? ==> r.fault == Some(SchedulingFailed(ComputeSchedule(s.config, zones, nowUtc).error))
    ensures r.fault.None? ==>
      && r.service.config == s.config
      && r.service.current == Some(|s.timers|)
      && |r.service.timers| == |s.timers| + 1
      && r.service.timers[..|s.timers|] == Dispose(s).timers
      && r.service.timers[|s.timers|] == TimerState(ComputeSchedule(s.config, zones, nowUtc).value.timeToWait, false, false)
      && 0 <= r.service.timers[|s.timers|].dueTime < TicksPerDay + MaxOffset
    ensures r.fault.None? ==> LiveTimers(r.service) == LiveTimers(Dispose(s)) + {|s.timers|}
  {
    match ComputeSchedule(s.config, zones, nowUtc)
    case Failure(e) => Step(s, Some(SchedulingFailed(e)))
    case Success(plan) =>
      WaitBounds(s.config, zones, nowUtc);
      Step(Arm(Dispose(s), plan.timeToWait), None)
  }

  /** The replacing pass keeps at most one live timer, the referenced one. */
  lemma ReplacingKeepsOneLiveTimer(s: Service, zones: ZoneTable, nowUtc: DateTime)
    requires s.Valid() && nowUtc.Valid() && OnlyCurrentLive(s)
    ensures OnlyCurrentLive(ScheduleDailyReplacing(s, zones, nowUtc).service)
    ensures ScheduleDailyReplacing(s, zones, nowUtc).fault.None? ==>
      LiveTimers(ScheduleDailyReplacing(s, zones, nowUtc).service) == {|s.timers|}
  {
    var r := ScheduleDailyReplacing(s, zones, nowUtc);
    if r.fault.None? {
      ReleaseSilencesReplacingService(s);
      forall i | 0 <= i < |r.service.timers| && r.service.timers[i].Live()
        ensures r.service.current == Some(i)
      {
        assert i in LiveTimers(r.service);
      }
    }
  }

  /**
    When only the referenced timer is live, a stop or a dispose leaves nothing that can fire.
    (A stop that raises `ObjectDisposedException` found that timer already disposed.)
   */
  lemma ReleaseSilencesReplacingService(s: Service)
    requires s.Valid() && OnlyCurrentLive(s)
    ensures LiveTimers(StopAsync(s).service) == {}
    ensures LiveTimers(Dispose(s)) == {}
  {
    forall i | i in LiveTimers(s)
      ensures s.current == Some(i)
    {
    }
  }

  /** `StartAsync` and then the callbacks, each pass using the replacing rule. */
  function RunReplacing(s: Service, zones: ZoneTable, times: seq<DateTime>): (r: Service)
    requires s.Valid() && AllValid(times)
    ensures r.Valid() && r.config == s.config
    ensures |s.timers| <= |r.timers|
    ensures forall i :: 0 <= i < |s.timers| ==> r.timers[i].dueTime == s.timers[i].dueTime
    ensures CurrentIsNewest(s) ==> CurrentIsNewest(r)
    decreases |times|
  {
    if times == [] then s
    else RunReplacing(ScheduleDailyReplacing(s, zones, times[0]).service, zones, times[1..])
  }

  /**
    The corrected counterpart of `StopAfterRunLeavesEarlierTimersLive`: after a start and any
    number of re-arms, at most the referenced timer is live, and stopping leaves none.
   */
  lemma {:induction false} ReplacingRunStopsCleanly(s: Service, zones: ZoneTable, times: seq<DateTime>)
    requires s.Valid() && AllValid(times) && OnlyCurrentLive(s)
    ensures OnlyCurrentLive(RunReplacing(s, zones, times))
    ensures LiveTimers(StopAsync(RunReplacing(s, zones, times)).service) == {}
    decreases |times|
  {
    if times == [] {
      ReleaseSilencesReplacingService(s);
    } else {
      ReplacingKeepsOneLiveTimer(s, zones, times[0]);
      ReplacingRunStopsCleanly(ScheduleDailyReplacing(s, zones, times[0]).service, zones, times[1..]);
    }
  }
}

=== FILE: results.dfy ===
/** Failure-carrying values used in place of the exceptions the scheduler can raise. */
module Results {

  /** A value that may be absent. */
  datatype Option<+T> = None | Some(value: T)

  /** Either a computed value or the error that stopped the computation. */
  datatype Result<+T, +E> = Success(value: T) | Failure(error: E)
}

=== FILE: schedule.dfy ===
/**
  The daily scheduling rule of `TimedHostedService.ScheduleDailyTaskBasedOnUserSpecifiedTime`:
  read "now" as wall-clock time in the configured zone, take today's date at `Hour:Minute:00`,
  move it to tomorrow if now is already past it, and wait until that local time comes round
  (converted back to UTC).
 */
module Scheduling {
  import opened Results
  import opened Calendar
  import opened DateTimes
  import opened TimeZones

  /** The bound configuration section: zone identifier and the local time of day to run at. */
  datatype ScheduleConfig = ScheduleConfig(timeZoneId: string, hour: int, minute: int)

  /** The exceptions a scheduling pass can raise before it arms a timer. */
  datatype ScheduleError =
    | ZoneLookupFailed(cause: ZoneError)  // FindSystemTimeZoneById
    | TimeOfDayOutOfRange                 // new DateTime(...): ArgumentOutOfRangeException
    | DateOutOfRange                      // AddDays(1) past 31 December 9999: ArgumentOutOfRangeException

  /** What one pass computes: local now, the chosen target (local and UTC) and the wait in ticks. */
  datatype Schedule = Schedule(nowLocal: DateTime, targetLocal: DateTime, targetUtc: DateTime, timeToWait: int)

  predicate ValidTimeOfDay(cfg: ScheduleConfig) {
    0 <= cfg.hour < 24 && 0 <= cfg.minute < 60
  }

  /** Tick-of-day of `Hour:Minute:00`. */
  function SlotTicks(cfg: ScheduleConfig): int {
    TimeToTicks(cfg.hour, cfg.minute, 0)
  }

  /** `new DateTime(nowLocal.Year, nowLocal.Month, nowLocal.Day, Hour, Minute, 0)`. */
  function TodaysSlot(cfg: ScheduleConfig, nowLocal: DateTime): Result<DateTime, DateTimeError> {
    FromParts(nowLocal.date.year, nowLocal.date.month, nowLocal.date.day, cfg.hour, cfg.minute, 0)
  }

  /** The local wall-clock reading of `nowUtc` in the zone, when the zone is known. */
  function LocalNow(cfg: ScheduleConfig, zones: ZoneTable, nowUtc: DateTime): DateTime
    requires nowUtc.Valid() && cfg.timeZoneId in zones
  {
    ConvertTimeFromUtc(nowUtc, zones[cfg.timeZoneId])
  }

  /** The only way a known zone and a valid time of day still fail: now is past the slot on the last date. */
  predicate PastLastSlot(cfg: ScheduleConfig, nowLocal: DateTime) {
    nowLocal.date == LastDate && nowLocal.tick > SlotTicks(cfg)
  }

  /** How the fields of a successful pass are tied to its inputs. */
  predicate Computed(s: Schedule, cfg: ScheduleConfig, offset: Offset, nowUtc: DateTime)
    requires nowUtc.Valid()
  {
    && s.nowLocal == ConvertTimeFromUtc(nowUtc, offset)
    && s.targetLocal.Valid()
    && s.targetLocal.tick == SlotTicks(cfg)
    && s.targetUtc == ConvertTimeToUtc(s.targetLocal, offset)
    && s.timeToWait == Ticks(s.targetUtc) - Ticks(nowUtc)
  }

  /**
    One scheduling pass at the instant `nowUtc`. The zone lookup comes first, then the
    construction of today's slot, then the optional move to tomorrow.
   */
  function ComputeSchedule(cfg: ScheduleConfig, zones: ZoneTable, nowUtc: DateTime)
    : (r: Result<Schedule, ScheduleError>)
    requires nowUtc.Valid()
    ensures cfg.timeZoneId !in zones <==> r == Failure(ZoneLookupFailed(TimeZoneNotFound(cfg.timeZoneId)))
    ensures cfg.timeZoneId in zones ==> (!ValidTimeOfDay(cfg) <==> r == Failure(TimeOfDayOutOfRange))
    ensures cfg.timeZoneId in zones && ValidTimeOfDay(cfg) ==>
      (PastLastSlot(cfg, LocalNow(cfg, zones, nowUtc)) <==> r == Failure(DateOutOfRange))
    ensures r.Success? ==> cfg.timeZoneId in zones && ValidTimeOfDay(cfg)
    ensures r.Success? ==> Computed(r.value, cfg, zones[cfg.timeZoneId], nowUtc)
  {
    match FindSystemTimeZoneById(zones, cfg.timeZoneId)
    case Failure(e) => Failure(ZoneLookupFailed(e))
    case Success(offset) =>
      var nowLocal := ConvertTimeFromUtc(nowUtc, offset);
      match TodaysSlot(cfg, nowLocal)
      case Failure(_) => Failure(TimeOfDayOutOfRange)
      case Success(sameDay) =>
        TimeToTicksFields(cfg.hour, cfg.minute, 0);
        DayNumberRange(sameDay.date);
        var adjusted := if Ticks(nowLocal) > Ticks(sameDay) then AddOneDay(sameDay) else Success(sameDay);
        match adjusted
        case Failure(_) => Failure(DateOutOfRange)
        case Success(targetLocal) =>
          var targetUtc := ConvertTimeToUtc(targetLocal, offset);
          Success(Schedule(nowLocal, targetLocal, targetUtc, Ticks(targetUtc) - Ticks(nowUtc)))
  }

  // ---------------------------------------------------------------------------
  // Properties of a scheduling pass.

  /** Before any adjustment the candidate is on now's date, at exactly `Hour:Minute:00`. */
  lemma CandidateIsToday(cfg: ScheduleConfig, nowLocal: DateTime)
    requires nowLocal.Valid()
    ensures TodaysSlot(cfg, nowLocal).Success? <==> ValidTimeOfDay(cfg)
    ensures TodaysSlot(cfg, nowLocal).Success? ==>
      var c := TodaysSlot(cfg, nowLocal).value;
      && c.date == nowLocal.date
      && c.Hour() == cfg.hour && c.Minute() == cfg.minute && c.Second() == 0
      && c.tick == SlotTicks(cfg)
  {
    if ValidTimeOfDay(cfg) {
      TimeToTicksFields(cfg.hour, cfg.minute, 0);
    }
  }

  /**
    The target moves to the next calendar day exactly when now is strictly later than today's
    slot; when now equals the slot, or is earlier, the target is today's slot itself.
   */
  lemma RollsIffSlotPassed(cfg: ScheduleConfig, zones: ZoneTable, nowUtc: DateTime)
    requires nowUtc.Valid() && ComputeSchedule(cfg, zones, nowUtc).Success?
    ensures var s := ComputeSchedule(cfg, zones, nowUtc).value;
      && TodaysSlot(cfg, s.nowLocal).Success?
      && (!Before(TodaysSlot(cfg, s.nowLocal).value, s.nowLocal) <==> s.targetLocal == TodaysSlot(cfg, s.nowLocal).value)
      && (Before(TodaysSlot(cfg, s.nowLocal).value, s.nowLocal) ==>
            && NextDay(s.nowLocal.date) == Some(s.targetLocal.date)
            && s.targetLocal.tick == SlotTicks(cfg))
  {
    var s := ComputeSchedule(cfg, zones, nowUtc).value;
    CandidateIsToday(cfg, s.nowLocal);
    var c := TodaysSlot(cfg, s.nowLocal).value;
    BeforeIffTicks(c, s.nowLocal);
    if Before(c, s.nowLocal) {
      var a := AddOneDay(c);
      assert a.Success? && s.targetLocal == a.value;
      assert s.targetLocal != c;
      DayNumberRange(c.date);
      NextDayIsSuccessor(c.date);
      DayNumberInjective(NextDay(c.date).value, s.targetLocal.date);
    }
  }

  /** The chosen target is not before now and lies less than one day after it. */
  lemma TargetWithinOneDay(cfg: ScheduleConfig, zones: ZoneTable, nowUtc: DateTime)
    requires nowUtc.Valid() && ComputeSchedule(cfg, zones, nowUtc).Success?
    ensures var s := ComputeSchedule(cfg, zones, nowUtc).value;
      && !Before(s.targetLocal, s.nowLocal)
      && Ticks(s.nowLocal) <= Ticks(s.targetLocal) < Ticks(s.nowLocal) + TicksPerDay
  {
    var s := ComputeSchedule(cfg, zones, nowUtc).value;
    CandidateIsToday(cfg, s.nowLocal);
    var c := TodaysSlot(cfg, s.nowLocal).value;
    RollsIffSlotPassed(cfg, zones, nowUtc);
    BeforeIffTicks(c, s.nowLocal);
    BeforeIffTicks(s.targetLocal, s.nowLocal);
    if Before(c, s.nowLocal) {
      assert Ticks(s.targetLocal) == Ticks(c) + TicksPerDay;
    }
  }

  /**
    The target is the earliest `Hour:Minute:00` reading that is not before now: any valid
    date-time at that time of day which is not before now is not before the target either.
   */
  lemma TargetIsEarliestSlot(cfg: ScheduleConfig, zones: ZoneTable, nowUtc: DateTime, other: DateTime)
    requires nowUtc.Valid() && ComputeSchedule(cfg, zones, nowUtc).Success?
    requires other.Valid() && other.tick == SlotTicks(cfg)
    requires !Before(other, ComputeSchedule(cfg, zones, nowUtc).value.nowLocal)
    ensures !Before(other, ComputeSchedule(cfg, zones, nowUtc).value.targetLocal)
  {
    var s := ComputeSchedule(cfg, zones, nowUtc).value;
    TargetWithinOneDay(cfg, zones, nowUtc);
    BeforeIffTicks(other, s.nowLocal);
    BeforeIffTicks(other, s.targetLocal);
    SameTimeOfDayWholeDays(s.targetLocal, other);
  }

  /**
    With no saturation at either end of the range, the wait computed in UTC equals the gap
    between the local target and local now, so it lies in [0, 24h).
   */
  lemma WaitIsLocalGap(cfg: ScheduleConfig, zones: ZoneTable, nowUtc: DateTime)
    requires nowUtc.Valid() && ComputeSchedule(cfg, zones, nowUtc).Success?
    requires 0 <= Ticks(nowUtc) + zones[cfg.timeZoneId] <= MaxTicks
    requires Ticks(ComputeSchedule(cfg, zones, nowUtc).value.targetLocal) - zones[cfg.timeZoneId] <= MaxTicks
    ensures var s := ComputeSchedule(cfg, zones, nowUtc).value;
      && s.timeToWait == Ticks(s.targetLocal) - Ticks(s.nowLocal)
      && 0 <= s.timeToWait < TicksPerDay
  {
    TargetWithinOneDay(cfg, zones, nowUtc);
  }

  /**
    Every successful pass waits a non-negative time. The wait is under one day unless the local
    reading of now was clamped at `DateTime.MinValue`, and under one day plus the largest
    offset in every case.
   */
  lemma WaitBounds(cfg: ScheduleConfig, zones: ZoneTable, nowUtc: DateTime)
    requires nowUtc.Valid() && ComputeSchedule(cfg, zones, nowUtc).Success?
    ensures var s := ComputeSchedule(cfg, zones, nowUtc).value;
      && 0 <= s.timeToWait < TicksPerDay + MaxOffset
      && (0 <= Ticks(nowUtc) + zones[cfg.timeZoneId] ==> s.timeToWait < TicksPerDay)
  {
    var s := ComputeSchedule(cfg, zones, nowUtc).value;
    TargetWithinOneDay(cfg, zones, nowUtc);
    TicksRange(nowUtc);
    TicksRange(s.nowLocal);
    TicksRange(s.targetLocal);
    TicksRange(s.targetUtc);
  }

  /**
    When now reads exactly `Hour:Minute:00` the run is due today with no wait; conversely a zero
    wait means now is exactly on the slot. Both assume no conversion is clamped.
   */
  lemma FiresNowOnEquality(cfg: ScheduleConfig, zones: ZoneTable, nowUtc: DateTime)
    requires nowUtc.Valid() && ComputeSchedule(cfg, zones, nowUtc).Success?
    requires 0 <= Ticks(nowUtc) + zones[cfg.timeZoneId] <= MaxTicks
    requires Ticks(ComputeSchedule(cfg, zones, nowUtc).value.targetLocal) - zones[cfg.timeZoneId] <= MaxTicks
    ensures var s := ComputeSchedule(cfg, zones, nowUtc).value;
      && (s.nowLocal.tick == SlotTicks(cfg) ==> s.targetLocal == s.nowLocal)
      && (s.timeToWait == 0 <==> s.nowLocal.tick == SlotTicks(cfg))
  {
    var s := ComputeSchedule(cfg, zones, nowUtc).value;
    CandidateIsToday(cfg, s.nowLocal);
    RollsIffSlotPassed(cfg, zones, nowUtc);
    WaitIsLocalGap(cfg, zones, nowUtc);
    var c := TodaysSlot(cfg, s.nowLocal).value;
    if s.nowLocal.tick == SlotTicks(cfg) {
      assert c == s.nowLocal;
    }
    if s.timeToWait == 0 {
      TicksInjective(s.targetLocal, s.nowLocal);
    }
  }

  /**
    A pass run exactly at the previous pass's target instant schedules that same instant again,
    with no wait, rather than the next day's slot.
   */
  lemma RecomputeAtFireInstant(cfg: ScheduleConfig, zones: ZoneTable, nowUtc: DateTime)
    requires nowUtc.Valid() && ComputeSchedule(cfg, zones, nowUtc).Success?
    ensures var fire := ComputeSchedule(cfg, zones, nowUtc).value.targetUtc;
      && ComputeSchedule(cfg, zones, fire).Success?
      && ComputeSchedule(cfg, zones, fire).value.targetUtc == fire
      && ComputeSchedule(cfg, zones, fire).value.timeToWait == 0
  {
    var s1 := ComputeSchedule(cfg, zones, nowUtc).value;
    if Ticks(s1.targetLocal) - zones[cfg.timeZoneId] <= MaxTicks {
      RecomputeUnclamped(cfg, zones, nowUtc);
    } else {
      RecomputeClamped(cfg, zones, nowUtc);
    }
  }

  /** `RecomputeAtFireInstant` when the target converts to UTC exactly. */
  lemma RecomputeUnclamped(cfg: ScheduleConfig, zones: ZoneTable, nowUtc: DateTime)
    requires nowUtc.Valid() && ComputeSchedule(cfg, zones, nowUtc).Success?
    requires Ticks(ComputeSchedule(cfg, zones, nowUtc).value.targetLocal) - zones[cfg.timeZoneId] <= MaxTicks
    ensures var fire := ComputeSchedule(cfg, zones, nowUtc).value.targetUtc;
      && ComputeSchedule(cfg, zones, fire).Success?
      && ComputeSchedule(cfg, zones, fire).value.targetUtc == fire
      && ComputeSchedule(cfg, zones, fire).value.timeToWait == 0
  {
    var s1 := ComputeSchedule(cfg, zones, nowUtc).value;
    var offset := zones[cfg.timeZoneId];
    var fire := s1.targetUtc;
    TicksRange(s1.targetLocal);
    TicksRange(nowUtc);
    TicksRange(s1.nowLocal);
    TargetWithinOneDay(cfg, zones, nowUtc);
    TicksInjective(ConvertTimeFromUtc(fire, offset), s1.targetLocal);
    assert !PastLastSlot(cfg, LocalNow(cfg, zones, fire));
    var s2 := ComputeSchedule(cfg, zones, fire).value;
    CandidateIsToday(cfg, s2.nowLocal);
    RollsIffSlotPassed(cfg, zones, fire);
    assert TodaysSlot(cfg, s2.nowLocal).value == s2.nowLocal;
    assert s2.targetLocal == s1.targetLocal;
  }

  /**
    `RecomputeAtFireInstant` when the target clamps at `MaxValue`: the offset is negative, the
    target lies on 31 December 9999, and at `MaxValue` local now is still before that slot.
   */
  lemma RecomputeClamped(cfg: ScheduleConfig, zones: ZoneTable, nowUtc: DateTime)
    requires nowUtc.Valid() && ComputeSchedule(cfg, zones, nowUtc).Success?
    requires Ticks(ComputeSchedule(cfg, zones, nowUtc).value.targetLocal) - zones[cfg.timeZoneId] > MaxTicks
    ensures var fire := ComputeSchedule(cfg, zones, nowUtc).value.targetUtc;
      && ComputeSchedule(cfg, zones, fire).Success?
      && ComputeSchedule(cfg, zones, fire).value.targetUtc == fire
      && ComputeSchedule(cfg, zones, fire).value.timeToWait == 0
  {
    var s1 := ComputeSchedule(cfg, zones, nowUtc).value;
    var offset := zones[cfg.timeZoneId];
    var fire := s1.targetUtc;
    assert fire == MaxValue;
    TicksRange(s1.targetLocal);
    TicksRange(fire);
    var local := ConvertTimeFromUtc(fire, offset);
    assert Ticks(local) == MaxTicks + offset;
    OnLastDay(s1.targetLocal);
    OnLastDay(local);
    assert local.tick < SlotTicks(cfg);
    assert !PastLastSlot(cfg, LocalNow(cfg, zones, fire));
    var s2 := ComputeSchedule(cfg, zones, fire).value;
    CandidateIsToday(cfg, s2.nowLocal);
    RollsIffSlotPassed(cfg, zones, fire);
    var c := TodaysSlot(cfg, s2.nowLocal).value;
    assert c == s1.targetLocal;
    BeforeIffTicks(c, s2.nowLocal);
    assert s2.targetLocal == s1.targetLocal;
  }

  /** Two readings of the same time of day less than two days apart, in order, are one day apart. */
  lemma OneDayApart(u1: int, u2: int, t1: int, t2: int, n2: int, second: int, offset: int)
    requires u1 == t1 - offset && u2 == t2 - offset && n2 == second + offset
    requires n2 <= t2 < n2 + TicksPerDay
    requires u1 < second <= u1 + TicksPerDay
    ensures t1 < t2 < t1 + 2 * TicksPerDay
  {
  }

  /**
    Two consecutive passes, the second running after the first target instant and at most a
    day later, choose targets exactly one day (24 hours of ticks) apart, provided the second
    target does not clamp at `MaxValue` on conversion to UTC.
   */
  lemma ConsecutivePassesOneDayApart(cfg: ScheduleConfig, zones: ZoneTable, first: DateTime, second: DateTime)
    requires first.Valid() && second.Valid()
    requires ComputeSchedule(cfg, zones, first).Success? && ComputeSchedule(cfg, zones, second).Success?
    requires Ticks(ComputeSchedule(cfg, zones, first).value.targetUtc) < Ticks(second)
    requires Ticks(second) <= Ticks(ComputeSchedule(cfg, zones, first).value.targetUtc) + TicksPerDay
    requires Ticks(ComputeSchedule(cfg, zones, second).value.targetLocal) - zones[cfg.timeZoneId] <= MaxTicks
    ensures Ticks(ComputeSchedule(cfg, zones, second).value.targetUtc)
         == Ticks(ComputeSchedule(cfg, zones, first).value.targetUtc) + TicksPerDay
  {
    var s1 := ComputeSchedule(cfg, zones, first).value;
    var s2 := ComputeSchedule(cfg, zones, second).value;
    TargetWithinOneDay(cfg, zones, first);
    TargetWithinOneDay(cfg, zones, second);
    var offset := zones[cfg.timeZoneId];
    TicksRange(first);
    TicksRange(second);
    TicksRange(s1.nowLocal);
    TicksRange(s1.targetLocal);
    TicksRange(s1.targetUtc);
    TimeToTicksFields(cfg.hour, cfg.minute, 0);
    PassesOneDayApart(cfg, zones[cfg.timeZoneId], first, second, s1, s2);
  }

  /** The arithmetic core of `ConsecutivePassesOneDayApart`, stated over computed schedules. */
  lemma PassesOneDayApart(cfg: ScheduleConfig, offset: Offset, first: DateTime, second: DateTime, s1: Schedule, s2: Schedule)
    requires first.Valid() && second.Valid()
    requires Computed(s1, cfg, offset, first) && Computed(s2, cfg, offset, second)
    requires Ticks(s2.nowLocal) <= Ticks(s2.targetLocal) < Ticks(s2.nowLocal) + TicksPerDay
    requires Ticks(s1.targetUtc) < Ticks(second) <= Ticks(s1.targetUtc) + TicksPerDay
    requires 0 <= Ticks(second) + offset <= MaxTicks
    requires 0 <= Ticks(s1.targetLocal) - offset <= MaxTicks
    requires Ticks(s2.targetLocal) - offset <= MaxTicks
    ensures Ticks(s2.targetUtc) == Ticks(s1.targetUtc) + TicksPerDay
  {
    TicksRange(second);
    var t1, t2 := Ticks(s1.targetLocal), Ticks(s2.targetLocal);
    var u1, u2 := Ticks(s1.targetUtc), Ticks(s2.targetUtc);
    var n2, now2 := Ticks(s2.nowLocal), Ticks(second);
    assert u1 == t1 - offset;
    assert u2 == t2 - offset;
    assert n2 == now2 + offset;
    OneDayApart(u1, u2, t1, t2, n2, now2, offset);
    SameTimeOfDayNextDay(s1.targetLocal, s2.targetLocal);
  }

  // ---------------------------------------------------------------------------
  // Worked passes.

  /** At 23:00 UTC with a 09:00 slot in a zero-offset zone, the slot has passed: run tomorrow at 09:00, 10 hours on. */
  lemma EveningPassRollsToNextMorning()
    ensures ComputeSchedule(ScheduleConfig("UTC", 9, 0), map["UTC" := 0], DateTime(Date(2024, 1, 15), 23 * TicksPerHour))
         == Success(Schedule(DateTime(Date(2024, 1, 15), 23 * TicksPerHour),
                             DateTime(Date(2024, 1, 16), 9 * TicksPerHour),
                             DateTime(Date(2024, 1, 16), 9 * TicksPerHour),
                             10 * TicksPerHour))
  {
    var now := DateTime(Date(2024, 1, 15), 23 * TicksPerHour);
    var target := DateTime(Date(2024, 1, 16), 9 * TicksPerHour);
    TicksInjective(ConvertTimeFromUtc(now, 0), now);
    TicksInjective(ConvertTimeToUtc(target, 0), target);
  }

  /** At 06:00 UTC in a zone two hours ahead, local now is 08:00: run today at 09:00 local, 07:00 UTC. */
  lemma MorningPassRunsToday()
    ensures ComputeSchedule(ScheduleConfig("UTC+2", 9, 0), map["UTC+2" := 2 * TicksPerHour], DateTime(Date(2024, 1, 15), 6 * TicksPerHour))
         == Success(Schedule(DateTime(Date(2024, 1, 15), 8 * TicksPerHour),
                             DateTime(Date(2024, 1, 15), 9 * TicksPerHour),
                             DateTime(Date(2024, 1, 15), 7 * TicksPerHour),
                             TicksPerHour))
  {
    var now := DateTime(Date(2024, 1, 15), 6 * TicksPerHour);
    var local := DateTime(Date(2024, 1, 15), 8 * TicksPerHour);
    var target := DateTime(Date(2024, 1, 15), 9 * TicksPerHour);
    var targetUtc := DateTime(Date(2024, 1, 15), 7 * TicksPerHour);
    TicksInjective(ConvertTimeFromUtc(now, 2 * TicksPerHour), local);
    TicksInjective(ConvertTimeToUtc(target, 2 * TicksPerHour), targetUtc);
  }

  /** The callback runs 15 ms after a 09:00 slot: the slot has just passed, so the next run is tomorrow at 09:00. */
  lemma LateCallbackRollsToNextDay()
    ensures ComputeSchedule(ScheduleConfig("UTC", 9, 0), map["UTC" := 0], DateTime(Date(2024, 1, 16), 9 * TicksPerHour + 150_000))
         == Success(Schedule(DateTime(Date(2024, 1, 16), 9 * TicksPerHour + 150_000),
                             DateTime(Date(2024, 1, 17), 9 * TicksPerHour),
                             DateTime(Date(2024, 1, 17), 9 * TicksPerHour),
                             TicksPerDay - 150_000))
  {
    var now := DateTime(Date(2024, 1, 16), 9 * TicksPerHour + 150_000);
    var target := DateTime(Date(2024, 1, 17), 9 * TicksPerHour);
    TicksInjective(ConvertTimeFromUtc(now, 0), now);
    TicksInjective(ConvertTimeToUtc(target, 0), target);
  }
}

=== FILE: time_zone.dfy ===
/**
  Time zones as the scheduler uses them: a lookup by identifier that may fail, and conversions
  between UTC and the zone's wall-clock time. A zone is a fixed offset from UTC.
 */
module TimeZones {
  import opened Results
  import opened DateTimes

  /** The largest base offset a `TimeZoneInfo` accepts, in either direction. */
  const MaxOffset := 14 * TicksPerHour

  /** A zone's offset from UTC, in ticks; local time is UTC plus the offset. */
  type Offset = o: int | -MaxOffset <= o <= MaxOffset

  /** The zones the host system knows, by identifier. */
  type ZoneTable = map<string, Offset>

  datatype ZoneError = TimeZoneNotFound(id: string)

  /** `TimeZoneInfo.FindSystemTimeZoneById`: an unknown identifier raises `TimeZoneNotFoundException`. */
  function FindSystemTimeZoneById(zones: ZoneTable, id: string): (r: Result<Offset, ZoneError>)
    ensures r.Success? <==> id in zones
    ensures r.Success? ==> r.value == zones[id]
    ensures r.Failure? ==> r.error == TimeZoneNotFound(id)
  {
    if id in zones then Success(zones[id]) else Failure(TimeZoneNotFound(id))
  }

  /** Moves `dt` by `delta` ticks, saturating at `MinValue` and `MaxValue`. */
  function ShiftSaturating(dt: DateTime, delta: int): DateTime
    requires dt.Valid() && -TicksPerDay < delta < TicksPerDay
  {
    match Shift(dt, delta)
    case Some(moved) => moved
    case None => if delta > 0 then MaxValue else MinValue
  }

  /** `ShiftSaturating` lands exactly `delta` ticks away unless that leaves the range. */
  lemma ShiftSaturatingTicks(dt: DateTime, delta: int)
    requires dt.Valid() && -TicksPerDay < delta < TicksPerDay
    ensures ShiftSaturating(dt, delta).Valid()
    ensures 0 <= Ticks(dt) + delta <= MaxTicks ==> Ticks(ShiftSaturating(dt, delta)) == Ticks(dt) + delta
    ensures Ticks(dt) + delta < 0 ==> ShiftSaturating(dt, delta) == MinValue
    ensures Ticks(dt) + delta > MaxTicks ==> ShiftSaturating(dt, delta) == MaxValue
  {
    ShiftTicks(dt, delta);
    TicksRange(dt);
  }

  /**
    `TimeZoneInfo.ConvertTimeFromUtc`: the wall-clock time in the zone at the UTC instant `utc`.
    Results beyond the `DateTime` range become `MinValue` or `MaxValue`.
   */
  function ConvertTimeFromUtc(utc: DateTime, offset: Offset): (local: DateTime)
    requires utc.Valid()
    ensures local.Valid()
    ensures 0 <= Ticks(utc) + offset <= MaxTicks ==> Ticks(local) == Ticks(utc) + offset
    ensures Ticks(utc) + offset < 0 ==> local == MinValue
    ensures Ticks(utc) + offset > MaxTicks ==> local == MaxValue
  {
    ShiftSaturatingTicks(utc, offset);
    ShiftSaturating(utc, offset)
  }

  /**
    `TimeZoneInfo.ConvertTimeToUtc`: the UTC instant at which the zone's clocks read `local`.
    A fixed-offset zone has no skipped or repeated local times, so every `local` converts.
   */
  function ConvertTimeToUtc(local: DateTime, offset: Offset): (utc: DateTime)
    requires local.Valid()
    ensures utc.Valid()
    ensures 0 <= Ticks(local) - offset <= MaxTicks ==> Ticks(utc) == Ticks(local) - offset
    ensures Ticks(local) - offset < 0 ==> utc == MinValue
    ensures Ticks(local) - offset > MaxTicks ==> utc == MaxValue
  {
    ShiftSaturatingTicks(local, -offset);
    ShiftSaturating(local, -offset)
  }

  /** Converting to local time and back returns the original instant when nothing saturates. */
  lemma {:induction false} ConvertRoundTrip(utc: DateTime, offset: Offset)
    requires utc.Valid() && 0 <= Ticks(utc) + offset <= MaxTicks
    ensures ConvertTimeToUtc(ConvertTimeFromUtc(utc, offset), offset) == utc
  {
    TicksInjective(ConvertTimeToUtc(ConvertTimeFromUtc(utc, offset), offset), utc);
  }

  /** Both conversions preserve the order of instants (they never reverse it). */
  lemma {:induction false} ConvertMonotone(a: DateTime, b: DateTime, offset: Offset)
    requires a.Valid() && b.Valid() && Ticks(a) <= Ticks(b)
    ensures Ticks(ConvertTimeFromUtc(a, offset)) <= Ticks(ConvertTimeFromUtc(b, offset))
    ensures Ticks(ConvertTimeToUtc(a, offset)) <= Ticks(ConvertTimeToUtc(b, offset))
  {
    TicksRange(ConvertTimeFromUtc(a, offset));
    TicksRange(ConvertTimeFromUtc(b, offset));
    TicksRange(ConvertTimeToUtc(a, offset));
    TicksRange(ConvertTimeToUtc(b, offset));
  }
}
